=== FILE: README.md ===
# Speech rubric scorer — a Dafny model

This project models the scoring core of an AI speech evaluator (`app.py`). The evaluator takes a speech transcript and its duration. It computes lexical statistics locally: word count, words per minute, type-token ratio and filler rate. It asks a language model for a structured extraction: salutation tier, basic and extra details, flow flag, grammar errors, and sentiment with a positivity probability. It turns both into an eight-row rubric breakdown and a total score.

The model is purely functional:

- `Schema` holds the extraction record and the sub-score each section derives from its own fields.
- `Lexical` holds words-per-minute with Python's half-to-even `round`, the speed bands, the type-token ratio, vocabulary, filler rate and clarity. Ratios are exact reals.
- `Aggregate` builds the fixed-order breakdown and the total.
- `JsonSpan` is the brace-span clean-up of the model's reply.
- `Report` decides what the HTML report shows: field formatting, detail panels, and the grammar boxes.
- `Analyze` is the whole `analyze_speech` outcome. The tokenizer output, filler-match count, model reply, strict parser and file-write result are inputs.
- `Text` holds the Python string built-ins these need.
- `Wrappers` holds `Option` and `Result`.

## Quirks of the source

The model keeps each of these behaviours of `app.py` as written:

- A rate of exactly 161 words per minute matches no band: the `wpm > 161` test (app.py:237) and the `141 <= wpm <= 160` test (app.py:238) both miss it, so it falls through to "Too Slow" (`Lexical.SpeedBand`).
- The eight stated row maxima add up to 90, yet the report says "/ 100" (`Aggregate.StatedMaximaSumTo90`).
- Key Details adds the basic score (up to 20) and the extra score (up to 10), so it can reach 30 against a stated maximum of 20. That surplus is what lets the total reach 100. The total always lies between 25 and 100 (`Aggregate.TotalBounds`, `Aggregate.TotalCanReach100`).
- The positivity probability is not range-checked. Values of 0.9 or more score 15, and values below 0.3, negative ones included, score 3.
- The filler rate is rounded to two decimals before it is compared with 3. Clarity therefore stays at 15 up to a rate of 3.005 % (`Lexical.ClarityByCounts`).
- `format_list` shows an empty list as an empty string, not as the "Not mentioned" placeholder. The "origin" and "strengths" extra details are scored but never shown in the report.

## Model

| member | source | states |
|---|---|---|
| Text.Strip | app.py:227 | the result has no whitespace at either end and is the run of the input left between a blank prefix and a blank suffix |
| Text.StripEmptyIffBlank | app.py:227 | `key.strip() == ""` holds exactly when every character of the key is Python whitespace, the empty key included |
| Text.Find | app.py:218 | the result is -1 iff the character is absent; otherwise it is an index holding the character with no earlier occurrence |
| Text.RFind | app.py:219 | the result is -1 iff the character is absent; otherwise it is an index holding the character with no later occurrence, so `rfind + 1` is never -1 |
| Text.Slice | app.py:220 | Python slicing with non-negative bounds gives the exact range when it is in bounds, "" when stop <= start, and always a contiguous substring |
| Text.Lower | app.py:243 | ASCII case folding: the folded string has the input's length, folds each character on its own and holds no upper-case ASCII letter |
| Text.Join | app.py:106 | joining no items gives "", one item gives that item, and two or more start with the first item and the separator |
| Text.JoinSnoc | app.py:106 | appending an item to a non-empty list appends the separator and that item to the joined string, so every item appears in order, one separator apart |
| Text.JoinLength | app.py:106 | a comma-joined list is as long as its items plus one separator between each adjacent pair |
| Text.NatToDecimal | app.py:286 | `str(n)` is a non-empty run of decimal digits with no leading zero |
| Text.DecimalRoundTrip | app.py:286 | reading back the decimal rendering of a rate or total gives the number itself |
| Schema.SalutationScore | app.py:24-27 | the tier table: the score is 0 exactly for No Salutation, 2 exactly for Normal, 4 exactly for Good and 5 exactly for Excellent |
| Schema.SalutationScoreStrictlyMonotone | app.py:26 | a higher tier scores strictly more, and only a higher tier does |
| Schema.Truthy | app.py:38 | a field counts exactly when it is not `None`, not `""` and not `[]` |
| Schema.CountTruthy | app.py:38 | the count of truthy fields is at most the number of fields; it is 0 iff none is truthy and full iff all are |
| Schema.CountTruthyFill | app.py:37-38 | replacing an untruthy field (None, "", []) with a truthy one raises the count by exactly one |
| Schema.BasicScore | app.py:35-38 | the basic-details score is a multiple of 4 in 0..20; it is 20 iff all five fields are truthy and 0 iff none is |
| Schema.BasicScoreFill | app.py:37-38 | giving a previously unmentioned basic field a non-empty value of its own type (a string for name, age and family, a list for class and hobbies) adds exactly 4 |
| Schema.ExtraScore | app.py:46-49 | the extra-details score is even and in 0..10; it is 10 iff all five fields are truthy and 0 iff none is |
| Schema.ExtraScoreFill | app.py:48-49 | giving a previously unmentioned extra field a non-empty value of its own type (a list for strengths, a string otherwise) adds exactly 2 |
| Schema.FlowScore | app.py:53-55 | the flow score is 5 iff the order was followed and 0 iff it was not |
| Schema.GrammarScore | app.py:64-71 | no words gives 0 and only that does; the score is in {0,2,4,6,8,10}; no errors gives 10; 10 × errors >= words gives 2 |
| Schema.GrammarScoreIsBand | app.py:66-71 | the real-valued bands equal the whole-number ones: 100e <= w → 10, 100e <= 3w → 8, 20e <= w → 6, 100e <= 7w → 4, else 2 |
| Schema.GrammarScoreAntitone | app.py:64-71 | for a fixed word count, more errors never raise the grammar score |
| Schema.EngagementScore | app.py:76-83 | the band table: 15 iff p >= 0.9, 12 iff 0.7 <= p < 0.9, 9 iff 0.5 <= p < 0.7, 6 iff 0.3 <= p < 0.5, 3 iff p < 0.3, with no range check on p |
| Schema.SentimentLabel | app.py:74 | the sentiment label shown in the Engagement row and the summary is a single line |
| Schema.SentimentLabelInjective | app.py:74 | distinct sentiments have distinct labels |
| Schema.EngagementScoreMonotone | app.py:78-83 | a larger positivity probability never lowers the engagement score |
| Lexical.RoundHalfEven | app.py:236 | `round` returns an integer within 1/2 of its argument, the even one on a tie, and never negative for a non-negative argument |
| Lexical.WordsPerMinute | app.py:236 | the rate is 0 for a non-positive duration; otherwise it is within 1/2 of 60 × words / seconds, and on an exact .5 tie it is the even neighbour |
| Lexical.SpeedPoints | app.py:237-241 | the points table: 10 iff Ideal, 6 iff Fast or Slow, 2 iff Too Fast or Too Slow |
| Lexical.SpeedName | app.py:237-241 | each band's printed name is a non-empty single line without ")" |
| Lexical.SpeedNameInjective | app.py:237-241 | distinct bands have distinct names |
| Lexical.SpeedBand | app.py:237-241 | Too Fast iff wpm >= 162, Fast iff 141..160, Ideal iff 111..140, Slow iff 81..110, Too Slow iff wpm <= 80 or wpm = 161 |
| Lexical.NoDurationIsTooSlow | app.py:236-241 | a non-positive duration always gives "Too Slow" and 2 points |
| Lexical.LowerSet | app.py:243 | the distinct lower-cased words are at most as many as the words, and at least one when there are words |
| Lexical.LowerSetContains | app.py:243 | every word's lower-cased form is among the distinct words |
| Lexical.LowerSetOnly | app.py:243 | only lower-cased forms of the words are among the distinct words |
| Lexical.TypeTokenRatio | app.py:243 | the ratio lies in [0,1]; it is 0 with no words, and otherwise positive, with ratio × words = distinct words |
| Lexical.TypeTokenRatioOneIffDistinct | app.py:243 | the ratio is 1 exactly when no two words are equal after lower-casing |
| Lexical.FullWhenDistinct | app.py:243 | pairwise different lower-cased words make the distinct set as large as the word list |
| Lexical.DistinctWhenFull | app.py:243 | a distinct set as large as the word list means no two words coincide after lower-casing |
| Lexical.VocabularyScore | app.py:244 | the vocabulary score is one of 6, 8, 10 |
| Lexical.VocabularyByCounts | app.py:243-244 | vocabulary is 10 iff 10 × distinct >= 9 × words, and at least 8 iff 10 × distinct >= 7 × words |
| Lexical.FillerRate | app.py:250 | the rate lies on the 0.01 grid of `round(…, 2)`, is non-negative, is 0 with no words or no fillers, and is otherwise within 0.005 of 100 × fillers / words |
| Lexical.ClarityScore | app.py:251 | the clarity score is one of 12, 15 |
| Lexical.ClarityByCounts | app.py:250-251 | clarity is 15 iff there are no words or 20000 × fillers <= 601 × words, the rounding letting rates up to 3.005 % through |
| Lexical.Measure | app.py:232-250 | the statistics are the word count, the rounded words-per-minute rate, the type-token ratio and the rounded filler percentage of the given words, filler count and duration; the ratio lies in [0,1], the filler rate is non-negative, an empty transcript has ratio and rate 0, and no duration gives rate 0 |
| Lexical.EmptyTranscriptScores | app.py:236-251 | an empty transcript scores 6 for vocabulary, 15 for clarity and "Too Slow" for speed |
| Aggregate.SpeedMetric | app.py:286 | the speech-rate label starts with the rate's decimal digits, ends with the band's name followed by ")", and holds no line break |
| Aggregate.SpeedMetricInjective | app.py:286 | two equal labels show the same rate and the same band, so the label names both |
| Aggregate.Scores | app.py:277-290 | each section is filled by its own sub-score (salutation, basic plus extra details, flow, speed points of the rate's band, grammar, vocabulary, clarity, engagement), and each stays in its range: salutation <= 5, Key Details <= 30, flow <= 5, speed 2..10, grammar <= 10, vocabulary 6..10, clarity 12..15, engagement 3..15; grammar is 0 iff there are no words |
| Aggregate.Breakdown | app.py:282-291 | there are exactly eight rows in rubric order: categories Content ×3, Speech Rate, Language ×2, Clarity, Engagement; maxima 5, 20, 5, 10, 10, 10, 15, 15; each row carries its section's score |
| Aggregate.BreakdownMetrics | app.py:283-290 | the metric labels are fixed names, except the speech-rate label, which shows the rate and its band, and the engagement label, which shows the sentiment |
| Aggregate.Total | app.py:293 | no row scores more than the column sum, and the sum is 0 only when every row scores 0 |
| Aggregate.TotalOfEight | app.py:293 | summing a column of eight rows is the sum of its eight entries |
| Aggregate.TotalIsSumOfSubScores | app.py:277-293 | the total is exactly salutation + basic + extra + flow + speed + grammar + vocabulary + clarity + engagement |
| Aggregate.StatedMaximaSumTo90 | app.py:282-291 | the stated row maxima add up to 90 |
| Aggregate.RowsWithinMaxima | app.py:279-291 | every row is within its stated maximum except Key Details, which is bounded by 30 instead |
| Aggregate.TotalBounds | app.py:277-293 | for statistics where no words means no fillers, the total lies in 25..100 |
| Aggregate.FullMarksKeyDetails | app.py:35-49 | an extraction mentioning every detail scores 20 basic and 10 extra |
| Aggregate.TotalCanReach100 | app.py:279-293 | there is an input whose Key Details row scores 30, above its stated 20, and whose total is 100 |
| JsonSpan.CleanJsonText | app.py:216-222 | the result is always a substring; with no '{' it is the input; otherwise it is empty iff no '}' follows a '{', and when non-empty it runs from '{' to '}' with no '{' before it and no '}' after it |
| JsonSpan.CleanJsonTextIdempotent | app.py:216-221 | cleaning an already cleaned reply changes nothing |
| JsonSpan.CleanJsonTextRecoversObject | app.py:216-221 | prose before an object (without '{') and after it (without '}') is cut away exactly |
| Report.FormatList | app.py:105-107 | a non-list value shows the placeholder exactly when it is untruthy (or is the placeholder text itself), and a truthy string shows itself; a list is shown as its items joined by ", " |
| Report.FormatListAgreesWithScoring | app.py:105-107 | a field the scorer does not count shows the placeholder, except an empty list, which shows ""; a counted list is shown at its joined length |
| Report.DetailPanels | app.py:188-203 | the basic panel has five lines (opening phrase, name, age, class/job, hobbies) and the insights panel four (family context, about family, ambition, unique fact), each with its caption; the opening phrase is shown as extracted and every other field is run through `format_list` |
| Report.PanelsShowMentionedDetails | app.py:188-203 | each shown detail that is `None` appears as the placeholder, and a non-empty name, age or family context appears as written |
| Report.PanelsIgnoreOriginAndStrengths | app.py:188-203 | changing the origin or the strengths leaves both panels unchanged |
| Report.GrammarFeedback | app.py:110-121 | no errors gives exactly one success box; otherwise there is one box per error, in order, with its text, correction and reason |
| Analyze.Extraction | app.py:273-274 | a failed request propagates its error; a reply reaches the parser as its brace span; a reply without "{" reaches it untouched, and one whose "{" is never followed by "}" reaches it as "" |
| Analyze.Failed | app.py:309-310 | an error outcome is the prefix followed by the error's text, with no table and no file |
| Analyze.SummaryText | app.py:302-305 | the summary opens with the final score out of 100, and holds an indented Speed line showing the Speech Rate row's label and an indented Tone line, ended by a line break, showing the sentiment |
| Analyze.SummaryTextInjective | app.py:302-305 | two equal summaries report the same total, rate, band and tone |
| Analyze.AnalyzeSpeech | app.py:224-310 | a blank key gives the key message with no table or file; a request or parse failure gives one error message; a file comes back iff the key is set, the extraction parses and the write succeeds, and then the table is the breakdown of that extraction and the message is the summary of its total, rate, band and tone; a failed write gives that error's message |
| Analyze.NoPartialSuccess | app.py:224-310 | every outcome either has eight rows and a file, or no rows, no file and an error message |
| Analyze.SuccessReportsTotal | app.py:293-305 | on success the summary announces the table's total, which lies in 25..100 |
| Analyze.BlankKeyFailsFirst | app.py:227-228 | an all-space key fails with the key message whatever the model replies |
| Analyze.WrappedReplyIsRecovered | app.py:273-274 | a valid object wrapped in prose is scored exactly as the bare object would be |

## Left out

- Gradio interface (app.py:313-333): pure UI wiring.
- spaCy model loading and download (app.py:12-18): start-up I/O.
- Tokenization (app.py:232-233): foreign library. The alphabetic tokens are the input `words`.
- Filler matching (app.py:246-249): regex engine semantics. The number of whole-word, case-insensitive matches is the input `fillerCount`.
- Prompt construction and the Groq call (app.py:254-271): network client. The reply or its error is the input `reply`.
- Pydantic validation (app.py:274): library parser. It is the input `parse`. Which replies it accepts, including the literal enumerations and the field types, is therefore not modelled.
- HTML template, CSS and the score-table markup (app.py:98-102, 124-213): presentation only. `Report` models what is shown, not how.
- Writing the report file and building the DataFrame (app.py:225, 292, 298-300): I/O and library plumbing. The table is a sequence of rows. A failed write is the input `writeError`.
- Exceptions from non-string or missing inputs, such as a `None` duration or a non-string reply in `clean_json_text` (app.py:217-222): all inputs are typed here.
- `Schema.SalutationScore`: the `mapping.get(..., 0)` default is unreachable because the level is one of the four tiers.
- Lexical.RoundHalfEven: models `round` on exact reals. IEEE doubles can differ from exact arithmetic at exact band edges and at exact .5 ties of `wpm` and of the filler rate.
- Schema.GrammarScore: uses exact reals for `raw`. The float computation can differ only at exact band edges.
- Schema.EngagementScore: uses exact reals for the probability. The float comparison can differ only at exact band edges.
- Lexical.WordsPerMinute: a duration so small that `words / seconds * 60` overflows to infinity makes `round` raise at app.py:236, which app.py:309-310 turns into an error outcome; the model returns the exact, finite rate instead. The interface's `minimum=1` on the duration (app.py:320) keeps such inputs out of reach from the UI.
- Text.Lower: folds ASCII letters only and keeps the length. Python's `str.lower` also folds other alphabets, and a few characters grow when lowered (`"İ".lower()` has two code points).
- Message emoji: the emoji in the messages of app.py:228, 302 and 310 are modelled as U+26A0 U+FE0F, U+1F3C6 and U+274C respectively.
- Lexical.TypeTokenRatio: lower-casing is modelled for ASCII letters only. Python's `str.lower` also folds other alphabets.
- Lexical.LowerSet: lower-casing is modelled for ASCII letters only, as for `Lexical.TypeTokenRatio`.

=== FILE: Aggregate.dfy ===
/** The score breakdown: eight rubric rows in a fixed order, and the total,
    which is the plain sum of the row scores with no clamping. */
module Aggregate {
  import opened Wrappers
  import opened Text
  import opened Schema
  import opened Lexical

  /** One rubric line: category, metric label, achieved score, maximum score. */
  datatype Row = Row(category: string, metric: string, score: nat, max: nat)

  /** The categories of the eight rows, in presentation order. */
  const Categories: seq<string> :=
    ["Content", "Content", "Content", "Speech Rate", "Language", "Language", "Clarity", "Engagement"]

  /** The stated maximum of each row. */
  const Maxima: seq<nat> := [5, 20, 5, 10, 10, 10, 15, 15]

  /** The speech-rate metric label, `f"{wpm} WPM ({speech_cat})"`. */
  function SpeedMetric(wpm: nat, c: SpeedCategory): (m: string)
    ensures NatToDecimal(wpm) <= m
    ensures |m| > |SpeedName(c)| + 1 && m[|m| - |SpeedName(c)| - 1..] == SpeedName(c) + ")"
    ensures '\n' !in m
  {
    NatToDecimal(wpm) + " WPM (" + SpeedName(c) + ")"
  }

  /** The label determines both the rate and the band it shows. */
  lemma SpeedMetricInjective(w1: nat, c1: SpeedCategory, w2: nat, c2: SpeedCategory)
    requires SpeedMetric(w1, c1) == SpeedMetric(w2, c2)
    ensures w1 == w2 && c1 == c2
  {
    SpeedMetricParts(w1, c1);
    SpeedMetricParts(w2, c2);
    RateLabelSplit(w1, SpeedName(c1), w2, SpeedName(c2));
    SpeedNameInjective(c1, c2);
  }

  lemma SpeedMetricParts(w: nat, c: SpeedCategory)
    ensures SpeedMetric(w, c) == NatToDecimal(w) + [' '] + ("WPM (" + SpeedName(c) + ")")
  {
    assert " WPM (" == [' '] + "WPM (";
  }

  /** The digits end at the first space, and the band name sits between "WPM (" and ")". */
  lemma RateLabelSplit(w1: nat, n1: string, w2: nat, n2: string)
    requires NatToDecimal(w1) + [' '] + ("WPM (" + n1 + ")") == NatToDecimal(w2) + [' '] + ("WPM (" + n2 + ")")
    ensures w1 == w2 && n1 == n2
  {
    var d1, d2 := NatToDecimal(w1), NatToDecimal(w2);
    var r1, r2 := "WPM (" + n1 + ")", "WPM (" + n2 + ")";
    NoNonDigit(w1, ' ');
    NoNonDigit(w2, ' ');
    DelimitedSplit(d1, r1, d2, r2, ' ');
    DecimalInjective(w1, w2);
    assert n1 == r1[5..|r1| - 1];
    assert n2 == r2[5..|r2| - 1];
  }

  /** The eight sub-scores, in rubric order. */
  datatype ScoreCard = ScoreCard(
    salutation: nat, keyDetails: nat, flow: nat, speed: nat,
    grammar: nat, vocabulary: nat, clarity: nat, engagement: nat)

  /** Each section's score, Key Details adding the basic and the extra details. */
  function Scores(data: EvaluationResult, stats: LexicalStats): (c: ScoreCard)
    ensures c.salutation <= 5 && c.keyDetails <= 30 && c.flow <= 5
    ensures 2 <= c.speed <= 10 && c.grammar <= 10
    ensures 6 <= c.vocabulary <= 10 && 12 <= c.clarity <= 15 && 3 <= c.engagement <= 15
    ensures c.grammar == 0 <==> stats.wordCount == 0
    ensures c.salutation == SalutationScore(data.salutation) && c.flow == FlowScore(data.flow)
    ensures c.keyDetails == BasicScore(data.basicDetails) + ExtraScore(data.extraDetails)
    ensures c.speed == SpeedPoints(SpeedBand(stats.wpm))
    ensures c.grammar == GrammarScore(data.grammar, stats.wordCount)
    ensures c.vocabulary == VocabularyScore(stats.typeTokenRatio)
    ensures c.clarity == ClarityScore(stats.fillerRate)
    ensures c.engagement == EngagementScore(data.engagement)
  {
    ScoreCard(
      SalutationScore(data.salutation),
      BasicScore(data.basicDetails) + ExtraScore(data.extraDetails),
      FlowScore(data.flow),
      SpeedPoints(SpeedBand(stats.wpm)),
      GrammarScore(data.grammar, stats.wordCount),
      VocabularyScore(stats.typeTokenRatio),
      ClarityScore(stats.fillerRate),
      EngagementScore(data.engagement))
  }

  /** The score of row i. */
  function ScoreAt(c: ScoreCard, i: nat): nat
    requires i < 8
  {
    match i
    case 0 => c.salutation
    case 1 => c.keyDetails
    case 2 => c.flow
    case 3 => c.speed
    case 4 => c.grammar
    case 5 => c.vocabulary
    case 6 => c.clarity
    case _ => c.engagement
  }

  /** The metric label of row i. */
  function MetricAt(i: nat, rateLabel: string, toneLabel: string): string
    requires i < 8
  {
    match i
    case 0 => "Salutation"
    case 1 => "Key Details"
    case 2 => "Flow"
    case 3 => rateLabel
    case 4 => "Grammar"
    case 5 => "Vocabulary"
    case 6 => "Fillers"
    case _ => toneLabel
  }

  /** The eight rows built from the extraction record and the lexical statistics. */
  function Breakdown(data: EvaluationResult, stats: LexicalStats): (rows: seq<Row>)
    ensures |rows| == 8
    ensures forall i :: 0 <= i < 8 ==> rows[i].category == Categories[i] && rows[i].max == Maxima[i]
    ensures forall i :: 0 <= i < 8 ==> rows[i].score == ScoreAt(Scores(data, stats), i)
  {
    var c := Scores(data, stats);
    var rateLabel := SpeedMetric(stats.wpm, SpeedBand(stats.wpm));
    var toneLabel := SentimentLabel(data.engagement.sentimentLabel);
    seq(8, i requires 0 <= i < 8 => Row(Categories[i], MetricAt(i, rateLabel, toneLabel), ScoreAt(c, i), Maxima[i]))
  }

  /** The metric labels: fixed names, except the speech rate, which shows the
      rate and its category, and engagement, which shows the sentiment. */
  lemma BreakdownMetrics(data: EvaluationResult, stats: LexicalStats)
    ensures var rows := Breakdown(data, stats);
      && rows[0].metric == "Salutation" && rows[1].metric == "Key Details" && rows[2].metric == "Flow"
      && rows[3].metric == SpeedMetric(stats.wpm, SpeedBand(stats.wpm))
      && rows[4].metric == "Grammar" && rows[5].metric == "Vocabulary" && rows[6].metric == "Fillers"
      && rows[7].metric == SentimentLabel(data.engagement.sentimentLabel)
  {
  }

  /** `df["Score"].sum()`: no row exceeds the total, and the total is 0 only
      when every row scores 0. */
  function Total(rows: seq<Row>): (t: nat)
    ensures forall i :: 0 <= i < |rows| ==> rows[i].score <= t
    ensures t == 0 <==> forall i :: 0 <= i < |rows| ==> rows[i].score == 0
  {
    if |rows| == 0 then 0
    else
      assert forall i :: 1 <= i < |rows| ==> rows[i] == rows[1..][i - 1];
      rows[0].score + Total(rows[1..])
  }

  /** The sum of the stated maxima. */
  function MaxTotal(rows: seq<Row>): nat {
    if |rows| == 0 then 0 else rows[0].max + MaxTotal(rows[1..])
  }

  /** Eight rows summed one by one. */
  lemma {:induction false} TotalOfEight(rows: seq<Row>)
    requires |rows| == 8
    ensures Total(rows) == rows[0].score + rows[1].score + rows[2].score + rows[3].score
      + rows[4].score + rows[5].score + rows[6].score + rows[7].score
    ensures MaxTotal(rows) == rows[0].max + rows[1].max + rows[2].max + rows[3].max
      + rows[4].max + rows[5].max + rows[6].max + rows[7].max
  {
    TotalStep(rows, 0);
    TotalStep(rows, 1);
    TotalStep(rows, 2);
    TotalStep(rows, 3);
    TotalStep(rows, 4);
    TotalStep(rows, 5);
    TotalStep(rows, 6);
    TotalStep(rows, 7);
    assert rows[0..] == rows;
  }

  /** Peeling one row off a suffix. */
  lemma TotalStep(rows: seq<Row>, i: nat)
    requires i < |rows|
    ensures Total(rows[i..]) == rows[i].score + Total(rows[i + 1..])
    ensures MaxTotal(rows[i..]) == rows[i].max + MaxTotal(rows[i + 1..])
  {
    assert rows[i..][1..] == rows[i + 1..];
  }

  /** The total is the sum of the eight section scores, Key Details counting the
      basic and the extra details together. */
  lemma TotalIsSumOfSubScores(data: EvaluationResult, stats: LexicalStats)
    ensures Total(Breakdown(data, stats)) ==
      SalutationScore(data.salutation)
      + BasicScore(data.basicDetails) + ExtraScore(data.extraDetails)
      + FlowScore(data.flow)
      + SpeedPoints(SpeedBand(stats.wpm))
      + GrammarScore(data.grammar, stats.wordCount)
      + VocabularyScore(stats.typeTokenRatio)
      + ClarityScore(stats.fillerRate)
      + EngagementScore(data.engagement)
  {
    TotalOfEight(Breakdown(data, stats));
  }

  /** The stated maxima add up to 90, although the report shows the total
      "out of 100". */
  lemma StatedMaximaSumTo90(data: EvaluationResult, stats: LexicalStats)
    ensures MaxTotal(Breakdown(data, stats)) == 90
  {
    var rows := Breakdown(data, stats);
    TotalOfEight(rows);
    assert rows[0].max == 5 && rows[1].max == 20 && rows[2].max == 5 && rows[3].max == 10;
    assert rows[4].max == 10 && rows[5].max == 10 && rows[6].max == 15 && rows[7].max == 15;
  }

  /** Every row stays within its stated maximum except Key Details, which can
      reach 30 against a maximum of 20. */
  lemma RowsWithinMaxima(data: EvaluationResult, stats: LexicalStats)
    ensures forall i :: 0 <= i < 8 && i != 1 ==>
      Breakdown(data, stats)[i].score <= Breakdown(data, stats)[i].max
    ensures Breakdown(data, stats)[1].score <= 30
  {
  }

  /** Statistics as the lexical analysis produces them: no words means no fillers. */
  predicate Consistent(stats: LexicalStats) {
    stats.wordCount == 0 ==> stats.fillerRate == 0.0
  }

  /** The total lies between 25 and 100: the 10 points Key Details can score
      beyond its stated 20 are what make 100 reachable. */
  lemma TotalBounds(data: EvaluationResult, stats: LexicalStats)
    requires Consistent(stats)
    ensures 25 <= Total(Breakdown(data, stats)) <= 100
  {
    TotalIsSumOfSubScores(data, stats);
    if stats.wordCount == 0 {
      assert ClarityScore(stats.fillerRate) == 15;
    } else {
      assert GrammarScore(data.grammar, stats.wordCount) >= 2;
    }
  }

  /** An extraction mentioning every detail, with an excellent salutation, a
      followed order, no grammar errors and a confident positive tone. */
  const FullMarks: EvaluationResult := EvaluationResult(
    Salutation("Good morning everyone", Excellent),
    BasicDetails(Some("Asha"), Some("12"), Some(["7th grade"]), Some("parents"), Some(["chess"])),
    ExtraDetails(Some("close-knit"), Some("Pune"), Some("doctor"), Some("plays the flute"), Some(["patience"])),
    FlowSequence(true),
    GrammarAnalysis([]),
    Engagement(Positive, 0.95))

  /** Every basic and every extra detail is mentioned. */
  lemma FullMarksKeyDetails()
    ensures BasicScore(FullMarks.basicDetails) == 20
    ensures ExtraScore(FullMarks.extraDetails) == 10
  {
    assert forall i :: 0 <= i < 5 ==> Truthy(BasicFields(FullMarks.basicDetails)[i]);
    assert forall i :: 0 <= i < 5 ==> Truthy(ExtraFields(FullMarks.extraDetails)[i]);
  }

  /** Such an extraction, with 120 distinct words at 120 words per minute and no
      fillers, scores 30 on Key Details (stated maximum 20) and 100 in total. */
  lemma TotalCanReach100()
    ensures Breakdown(FullMarks, LexicalStats(120, 120, 1.0, 0.0))[1].score == 30
    ensures Total(Breakdown(FullMarks, LexicalStats(120, 120, 1.0, 0.0))) == 100
  {
    var stats := LexicalStats(120, 120, 1.0, 0.0);
    FullMarksKeyDetails();
    assert SalutationScore(FullMarks.salutation) == 5;
    assert FlowScore(FullMarks.flow) == 5;
    assert SpeedPoints(SpeedBand(120)) == 10;
    assert GrammarScore(FullMarks.grammar, 120) == 10;
    assert VocabularyScore(1.0) == 10;
    assert ClarityScore(0.0) == 15;
    assert EngagementScore(FullMarks.engagement) == 15;
    TotalIsSumOfSubScores(FullMarks, stats);
  }
}

=== FILE: Analyze.dfy ===
/** `analyze_speech`: the blank-key check, the lexical measurements, the
    model's reply cut to its brace span and parsed, the score breakdown, and
    the triple handed back to the interface. The tokenizer, the filler regex,
    the remote model, the strict parser and the file system are inputs. */
module Analyze {
  import opened Wrappers
  import opened Text
  import opened Schema
  import opened Lexical
  import opened Aggregate
  import opened JsonSpan

  /** The message for a missing key. */
  const KeyMissingMessage: string := "\U{26A0}\U{FE0F} Error: Please enter your Groq API Key."

  /** The prefix of every other failure message; the caught error's text follows. */
  const ErrorPrefix: string := "\U{274C} Error: "

  /** The name of the written report file. */
  const ReportFileName: string := "Speech_Analysis_Report.html"

  /** What the interface receives: a markdown message, the breakdown table
      (empty on failure) and the report file name (absent on failure). */
  datatype Outcome = Outcome(message: string, table: seq<Row>, file: Option<string>)

  /** A caught error: its text after the prefix, no table and no file. */
  function Failed(error: string): (o: Outcome)
    ensures ErrorPrefix <= o.message && o.message[|ErrorPrefix|..] == error
    ensures o.table == [] && o.file == None
  {
    Outcome(ErrorPrefix + error, [], None)
  }

  /** The fixed pieces of the summary around the reported values: the heading
      before the total, the rest of the first line and the Speed caption before
      the rate label, the Tone caption before the sentiment, and the trailing
      indentation. Every line after the first is indented by eight spaces. */
  const ScoreHeading: string := "## \U{1F3C6} Final Score: "
  const SpeedCaption: string := "\n        **Speed:** "
  const RateLead: string := "100" + SpeedCaption
  const ToneLead: string := "        **Tone:** "
  const Indent: string := "        "

  /** The markdown summary shown above the table: the total out of 100, the
      Speech Rate row's label, and the tone. The text is nested at the
      character that ends each reported value ('/' after the total, a line
      break after the rate label and after the tone). */
  function SummaryText(total: nat, wpm: nat, speed: SpeedCategory, tone: Sentiment): (t: string)
    ensures ScoreHeading + NatToDecimal(total) + "/100" <= t
    ensures IsSubstring(SpeedCaption + SpeedMetric(wpm, speed), t)
    ensures IsSubstring("\n" + ToneLead + SentimentLabel(tone) + "\n", t)
  {
    SummaryShape(NatToDecimal(total), SpeedMetric(wpm, speed), SentimentLabel(tone));
    ScoreHeading + (NatToDecimal(total) + "/" + SummaryAfterTotal(wpm, speed, tone))
  }

  function SummaryAfterRate(tone: Sentiment): string {
    ToneLead + (SentimentLabel(tone) + "\n" + Indent)
  }

  function SummaryAfterTotal(wpm: nat, speed: SpeedCategory, tone: Sentiment): string {
    RateLead + (SpeedMetric(wpm, speed) + "\n" + SummaryAfterRate(tone))
  }

  /** Where the score, the Speed line and the Tone line sit in the summary. */
  lemma SummaryShape(d: string, m: string, l: string)
    ensures var t := ScoreHeading + (d + "/" + (RateLead + (m + "\n" + (ToneLead + (l + "\n" + Indent)))));
      && ScoreHeading + d + "/100" <= t
      && IsSubstring(SpeedCaption + m, t)
      && IsSubstring("\n" + ToneLead + l + "\n", t)
  {
    var head := ScoreHeading + d + "/";
    var toneLine := "\n" + ToneLead + l + "\n";
    var t := ScoreHeading + (d + "/" + (RateLead + (m + "\n" + (ToneLead + (l + "\n" + Indent)))));
    assert "/100" == "/" + "100";
    assert t == head + "100" + (SpeedCaption + m) + toneLine + Indent;
    assert SpeedCaption + m <= t[|head| + 3..];
    assert toneLine <= t[|head| + 3 + |SpeedCaption + m|..];
  }

  /** The summary determines the total, the rate, the band and the tone it reports. */
  lemma SummaryTextInjective(
    total1: nat, wpm1: nat, speed1: SpeedCategory, tone1: Sentiment,
    total2: nat, wpm2: nat, speed2: SpeedCategory, tone2: Sentiment)
    requires SummaryText(total1, wpm1, speed1, tone1) == SummaryText(total2, wpm2, speed2, tone2)
    ensures total1 == total2 && wpm1 == wpm2 && speed1 == speed2 && tone1 == tone2
  {
    var x1, x2 := SummaryAfterTotal(wpm1, speed1, tone1), SummaryAfterTotal(wpm2, speed2, tone2);
    PrefixCancel(ScoreHeading, NatToDecimal(total1) + "/" + x1, NatToDecimal(total2) + "/" + x2);
    NoNonDigit(total1, '/');
    NoNonDigit(total2, '/');
    DelimitedSplit(NatToDecimal(total1), x1, NatToDecimal(total2), x2, '/');
    DecimalInjective(total1, total2);
    var y1, y2 := SummaryAfterRate(tone1), SummaryAfterRate(tone2);
    PrefixCancel(RateLead, SpeedMetric(wpm1, speed1) + "\n" + y1, SpeedMetric(wpm2, speed2) + "\n" + y2);
    DelimitedSplit(SpeedMetric(wpm1, speed1), y1, SpeedMetric(wpm2, speed2), y2, '\n');
    SpeedMetricInjective(wpm1, speed1, wpm2, speed2);
    PrefixCancel(ToneLead, SentimentLabel(tone1) + "\n" + Indent, SentimentLabel(tone2) + "\n" + Indent);
    DelimitedSplit(SentimentLabel(tone1), Indent, SentimentLabel(tone2), Indent, '\n');
    SentimentLabelInjective(tone1, tone2);
  }

  /** The extraction, when the model answered and its cleaned reply parsed. */
  function Extraction(reply: Result<string, string>, parse: string -> Result<EvaluationResult, string>)
    : (r: Result<EvaluationResult, string>)
    ensures reply.Failure? ==> r == Failure(reply.error)
    ensures reply.Success? ==> r == parse(CleanJsonText(reply.value))
    ensures reply.Success? && '{' !in reply.value ==> r == parse(reply.value)
    ensures reply.Success? && '{' in reply.value && !HasClosedSpan(reply.value) ==> r == parse("")
  {
    match reply
    case Failure(e) => Failure(e)
    case Success(raw) => parse(CleanJsonText(raw))
  }

  /** One analysis. `words` are the tokenizer's alphabetic tokens,
      `fillerCount` the number of filler matches in the transcript, `reply` the
      model's reply or the error raised while asking for it, `parse` the strict
      schema validation, and `writeError` the error raised while writing the
      report file, if any. */
  function AnalyzeSpeech(
    apiKey: string,
    words: seq<string>,
    fillerCount: nat,
    duration: real,
    reply: Result<string, string>,
    parse: string -> Result<EvaluationResult, string>,
    writeError: Option<string>): (o: Outcome)
    ensures IsBlank(apiKey) ==> o == Outcome(KeyMissingMessage, [], None)
    ensures !IsBlank(apiKey) && reply.Failure? ==> o == Failed(reply.error)
    ensures !IsBlank(apiKey) && Extraction(reply, parse).Failure? ==> o == Failed(Extraction(reply, parse).error)
    ensures o.file.Some? <==> !IsBlank(apiKey) && Extraction(reply, parse).Success? && writeError.None?
    ensures o.file.None? ==> o.table == []
    ensures !IsBlank(apiKey) && Extraction(reply, parse).Success? && writeError.Some? ==> o == Failed(writeError.value)
    ensures o.file.Some? ==>
      var stats := Measure(words, fillerCount, duration);
      o.message == SummaryText(Total(o.table), stats.wpm, SpeedBand(stats.wpm),
        Extraction(reply, parse).value.engagement.sentimentLabel)
    ensures o.file.Some? ==>
      && o.file == Some(ReportFileName)
      && o.table == Breakdown(Extraction(reply, parse).value, Measure(words, fillerCount, duration))
  {
    StripEmptyIffBlank(apiKey);
    if Strip(apiKey) == "" then
      Outcome(KeyMissingMessage, [], None)
    else
      var stats := Measure(words, fillerCount, duration);
      match Extraction(reply, parse)
      case Failure(e) => Failed(e)
      case Success(data) =>
        var rows := Breakdown(data, stats);
        var total := Total(rows);
        match writeError
        case Some(e) => Failed(e)
        case None =>
          Outcome(
            SummaryText(total, stats.wpm, SpeedBand(stats.wpm), data.engagement.sentimentLabel),
            rows,
            Some(ReportFileName))
  }

  /** There is no partial success: an outcome either carries all eight rows and
      the file, or neither, and then its message is an error message. */
  lemma NoPartialSuccess(
    apiKey: string, words: seq<string>, fillerCount: nat, duration: real,
    reply: Result<string, string>, parse: string -> Result<EvaluationResult, string>,
    writeError: Option<string>)
    ensures var o := AnalyzeSpeech(apiKey, words, fillerCount, duration, reply, parse, writeError);
      (o.file.Some? && |o.table| == 8) || (o.file.None? && o.table == []
        && (o.message == KeyMissingMessage || ErrorPrefix <= o.message))
  {
  }

  /** On success the summary announces the table's total, which lies between 25 and 100. */
  lemma SuccessReportsTotal(
    apiKey: string, words: seq<string>, fillerCount: nat, duration: real,
    reply: Result<string, string>, parse: string -> Result<EvaluationResult, string>)
    requires !IsBlank(apiKey) && Extraction(reply, parse).Success?
    ensures var o := AnalyzeSpeech(apiKey, words, fillerCount, duration, reply, parse, None);
      && "## \U{1F3C6} Final Score: " + NatToDecimal(Total(o.table)) + "/100" <= o.message
      && 25 <= Total(o.table) <= 100
  {
    var data := Extraction(reply, parse).value;
    var stats := Measure(words, fillerCount, duration);
    TotalBounds(data, stats);
  }

  /** A blank key fails at once, whatever the model would have answered. */
  lemma BlankKeyFailsFirst(
    apiKey: string, words: seq<string>, fillerCount: nat, duration: real,
    reply: Result<string, string>, parse: string -> Result<EvaluationResult, string>,
    writeError: Option<string>)
    requires forall i :: 0 <= i < |apiKey| ==> apiKey[i] == ' '
    ensures AnalyzeSpeech(apiKey, words, fillerCount, duration, reply, parse, writeError)
         == Outcome(KeyMissingMessage, [], None)
  {
  }

  /** A reply that wraps a valid object in leading and trailing prose is scored
      exactly as the bare object would be. */
  lemma WrappedReplyIsRecovered(
    apiKey: string, words: seq<string>, fillerCount: nat, duration: real,
    pre: string, obj: string, post: string,
    parse: string -> Result<EvaluationResult, string>)
    requires !IsBlank(apiKey)
    requires '{' !in pre && '}' !in post
    requires |obj| >= 2 && obj[0] == '{' && obj[|obj| - 1] == '}'
    requires parse(obj).Success?
    ensures AnalyzeSpeech(apiKey, words, fillerCount, duration, Success(pre + obj + post), parse, None).table
         == Breakdown(parse(obj).value, Measure(words, fillerCount, duration))
  {
    CleanJsonTextRecoversObject(pre, obj, post);
  }
}

=== FILE: JsonSpan.dfy ===
/** The permissive first step applied to the model's raw reply before strict
    parsing: keep the span from the first '{' to the last '}'. */
module JsonSpan {
  import opened Text

  /** Some '{' is followed, later on, by some '}'. */
  predicate HasClosedSpan(text: string) {
    exists i, j :: 0 <= i < j < |text| && text[i] == '{' && text[j] == '}'
  }

  /** `r` occurs in `text` with no '{' before it and no '}' after it. */
  predicate IsBraceSpan(r: string, text: string) {
    exists i :: 0 <= i <= |text| && r <= text[i..] && '{' !in text[..i] && '}' !in text[i..][|r|..]
  }

  /** `clean_json_text`: `start = find('{')`, `end = rfind('}') + 1`, and
      `text[start:end]` when `start != -1 and end != -1`. Since `end` is never
      -1, the second test always passes. */
  function CleanJsonText(text: string): (r: string)
    ensures IsSubstring(r, text)
    ensures '{' !in text ==> r == text
    ensures '{' in text ==> (r == [] <==> !HasClosedSpan(text))
    ensures '{' in text && r != [] ==>
      r[0] == '{' && r[|r| - 1] == '}' && IsBraceSpan(r, text)
  {
    var start := Find(text, '{');
    var end := RFind(text, '}') + 1;
    if start != -1 && end != -1 then
      var r := Slice(text, start, end);
      assert r != [] ==> r == text[start..end] && r <= text[start..] && text[start..][|r|..] == text[end..];
      r
    else
      assert text <= text[0..];
      text
  }

  /** Cleaning an already cleaned reply changes nothing. */
  lemma CleanJsonTextIdempotent(text: string)
    ensures CleanJsonText(CleanJsonText(text)) == CleanJsonText(text)
  {
    var r := CleanJsonText(text);
    if '{' in text && r != [] {
      assert Find(r, '{') == 0;
      var last := RFind(r, '}');
      assert last == |r| - 1;
      assert r[0..|r|] == r;
    }
  }

  /** Text around a brace-delimited object is cut away, provided the leading
      text holds no '{' and the trailing text no '}'. */
  lemma CleanJsonTextRecoversObject(pre: string, obj: string, post: string)
    requires '{' !in pre && '}' !in post
    requires |obj| >= 2 && obj[0] == '{' && obj[|obj| - 1] == '}'
    ensures CleanJsonText(pre + obj + post) == obj
  {
    var t := pre + obj + post;
    var s := |pre|;
    var e := |pre| + |obj|;
    assert t[s] == '{' && t[e - 1] == '}';
    assert t[..s] == pre;
    assert t[e..] == post;
    var first := Find(t, '{');
    assert first == s;
    var last := RFind(t, '}');
    assert last == e - 1;
    assert t[s..e] == obj;
  }
}

=== FILE: Lexical.dfy ===
/** The lexical statistics computed locally from the tokenised transcript:
    speaking rate, type-token ratio and filler rate, with the bands that turn
    each into a score. Ratios are exact reals. */
module Lexical {
  import opened Text
  import Schema

  /** Python's `round(x)`: the nearest integer, ties going to the even one. */
  function RoundHalfEven(x: real): (r: int)
    ensures -0.5 <= r as real - x <= 0.5
    ensures r as real - x == 0.5 || x - r as real == 0.5 ==> r % 2 == 0
    ensures x >= 0.0 ==> r >= 0
  {
    var f := x.Floor;
    var d := x - f as real;
    if d < 0.5 then f
    else if d > 0.5 then f + 1
    else if f % 2 == 0 then f
    else f + 1
  }

  /** For an even n, rounding gives at most n exactly when x <= n + 1/2. */
  lemma RoundAtMostEven(x: real, n: int)
    requires n % 2 == 0
    ensures RoundHalfEven(x) <= n <==> x <= n as real + 0.5
  {
  }

  /** `round(words / seconds * 60)`, or 0 when the duration is not positive. */
  function WordsPerMinute(wordCount: nat, duration: real): (r: nat)
    ensures duration <= 0.0 ==> r == 0
    ensures duration > 0.0 ==>
      -0.5 <= r as real - wordCount as real / duration * 60.0 <= 0.5
    ensures duration > 0.0 ==>
      var x := wordCount as real / duration * 60.0;
      (r as real - x == 0.5 || x - r as real == 0.5) ==> r % 2 == 0
  {
    if duration > 0.0 then RoundHalfEven((wordCount as real / duration) * 60.0) else 0
  }

  datatype SpeedCategory = TooFast | Fast | Ideal | Slow | TooSlow

  /** The band's name as the report prints it. */
  function SpeedName(c: SpeedCategory): (n: string)
    ensures |n| > 0 && '\n' !in n && ')' !in n
  {
    match c
    case TooFast => "Too Fast"
    case Fast => "Fast"
    case Ideal => "Ideal"
    case Slow => "Slow"
    case TooSlow => "Too Slow"
  }

  /** Points per category: Ideal 10, Fast and Slow 6, the extremes 2. */
  function SpeedPoints(c: SpeedCategory): (r: nat)
    ensures r <= 10
    ensures r == 10 <==> c == Ideal
    ensures r == 6 <==> c == Fast || c == Slow
    ensures r == 2 <==> c == TooFast || c == TooSlow
  {
    match c
    case Ideal => 10
    case Fast => 6
    case Slow => 6
    case TooFast => 2
    case TooSlow => 2
  }

  /** Distinct categories have distinct names. */
  lemma SpeedNameInjective(a: SpeedCategory, b: SpeedCategory)
    requires SpeedName(a) == SpeedName(b)
    ensures a == b
  {
  }

  /** The speaking-rate bands, tested in the order the scorer tests them:
      `wpm > 161` first, then 141..160, 111..140 and 81..110. The gap at exactly
      161 falls through to "Too Slow", together with every rate of 80 or less. */
  function SpeedBand(wpm: int): (c: SpeedCategory)
    ensures c == TooFast <==> wpm >= 162
    ensures c == Fast <==> 141 <= wpm <= 160
    ensures c == Ideal <==> 111 <= wpm <= 140
    ensures c == Slow <==> 81 <= wpm <= 110
    ensures c == TooSlow <==> wpm <= 80 || wpm == 161
  {
    if wpm > 161 then TooFast
    else if 141 <= wpm <= 160 then Fast
    else if 111 <= wpm <= 140 then Ideal
    else if 81 <= wpm <= 110 then Slow
    else TooSlow
  }

  /** With no positive duration the rate is 0 and the band is "Too Slow". */
  lemma NoDurationIsTooSlow(wordCount: nat, duration: real)
    requires duration <= 0.0
    ensures SpeedBand(WordsPerMinute(wordCount, duration)) == TooSlow
    ensures SpeedPoints(SpeedBand(WordsPerMinute(wordCount, duration))) == 2
  {
  }

  /** The distinct case-folded words, `set(w.lower() for w in words)`. */
  function LowerSet(words: seq<string>): (s: set<string>)
    ensures |s| <= |words|
    ensures |words| > 0 ==> |s| >= 1
  {
    if |words| == 0 then {}
    else LowerSet(words[..|words| - 1]) + {Lower(words[|words| - 1])}
  }

  /** Every word's case-folded form is in the set. */
  lemma {:induction false} LowerSetContains(words: seq<string>, i: nat)
    requires i < |words|
    ensures Lower(words[i]) in LowerSet(words)
  {
    if i < |words| - 1 {
      LowerSetContains(words[..|words| - 1], i);
    }
  }

  /** Nothing else is in the set. */
  lemma {:induction false} LowerSetOnly(words: seq<string>, w: string)
    requires w in LowerSet(words)
    ensures exists i :: 0 <= i < |words| && w == Lower(words[i])
  {
    if w != Lower(words[|words| - 1]) {
      var init := words[..|words| - 1];
      LowerSetOnly(init, w);
      var i :| 0 <= i < |init| && w == Lower(init[i]);
      assert init[i] == words[i];
    }
  }

  /** Distinct case-folded words over all words, 0 for an empty transcript. */
  function TypeTokenRatio(words: seq<string>): (r: real)
    ensures 0.0 <= r <= 1.0
    ensures |words| == 0 ==> r == 0.0
    ensures |words| > 0 ==> r > 0.0 && r * |words| as real == |LowerSet(words)| as real
  {
    if |words| > 0 then Ratio(|LowerSet(words)|, |words|) else 0.0
  }

  /** a / n for 0 < a <= n lies in (0, 1]. */
  function Ratio(a: nat, n: nat): (r: real)
    requires 0 < a <= n
    ensures 0.0 < r <= 1.0 && r * n as real == a as real
  {
    var r := a as real / n as real;
    assert r * n as real == a as real;
    Schema.RatioAtMost(a, n, 1.0);
    r
  }

  /** A ratio of 1 means no word repeats, up to case. */
  lemma TypeTokenRatioOneIffDistinct(words: seq<string>)
    requires |words| > 0
    ensures TypeTokenRatio(words) == 1.0 <==>
      forall i, j :: 0 <= i < j < |words| ==> Lower(words[i]) != Lower(words[j])
  {
    if TypeTokenRatio(words) == 1.0 {
      assert |LowerSet(words)| == |words|;
      DistinctWhenFull(words);
    } else {
      assert |LowerSet(words)| < |words|;
      if forall i, j :: 0 <= i < j < |words| ==> Lower(words[i]) != Lower(words[j]) {
        FullWhenDistinct(words);
        assert false;
      }
    }
  }

  /** When every word is new the set grows with each of them. */
  lemma {:induction false} FullWhenDistinct(words: seq<string>)
    requires forall i, j :: 0 <= i < j < |words| ==> Lower(words[i]) != Lower(words[j])
    ensures |LowerSet(words)| == |words|
  {
    if |words| > 0 {
      var init := words[..|words| - 1];
      FullWhenDistinct(init);
      var last := Lower(words[|words| - 1]);
      if last in LowerSet(init) {
        LowerSetOnly(init, last);
        assert false;
      }
    }
  }

  /** A set as large as the word list leaves no room for a repeat. */
  lemma {:induction false} DistinctWhenFull(words: seq<string>)
    requires |LowerSet(words)| == |words|
    ensures forall i, j :: 0 <= i < j < |words| ==> Lower(words[i]) != Lower(words[j])
  {
    if |words| > 0 {
      var init := words[..|words| - 1];
      var rest := LowerSet(init);
      var last := Lower(words[|words| - 1]);
      assert last !in rest;
      assert |rest| == |init|;
      DistinctWhenFull(init);
      forall i, j | 0 <= i < j < |words|
        ensures Lower(words[i]) != Lower(words[j])
      {
        assert words[i] == init[i];
        if j == |words| - 1 {
          LowerSetContains(init, i);
        } else {
          assert words[j] == init[j];
        }
      }
    }
  }

  /** Vocabulary bands: ratio >= 0.9 gives 10, >= 0.7 gives 8, else 6. */
  function VocabularyScore(ttr: real): (r: nat)
    ensures r in {6, 8, 10}
  {
    if ttr >= 0.9 then 10 else if ttr >= 0.7 then 8 else 6
  }

  /** The vocabulary score in whole numbers: d distinct words among n. */
  lemma VocabularyByCounts(words: seq<string>)
    requires |words| > 0
    ensures VocabularyScore(TypeTokenRatio(words)) == 10 <==> 10 * |LowerSet(words)| >= 9 * |words|
    ensures VocabularyScore(TypeTokenRatio(words)) >= 8 <==> 10 * |LowerSet(words)| >= 7 * |words|
  {
    VocabularyOfRatio(|LowerSet(words)|, |words|);
  }

  lemma VocabularyOfRatio(d: nat, n: nat)
    requires 0 < d <= n
    ensures VocabularyScore(Ratio(d, n)) == 10 <==> 10 * d >= 9 * n
    ensures VocabularyScore(Ratio(d, n)) >= 8 <==> 10 * d >= 7 * n
  {
    VocabularyByRatio(Ratio(d, n), n as real, d as real);
    ScaledCompare(d, n);
  }

  /** The vocabulary bands for a ratio r = d / n. */
  lemma VocabularyByRatio(r: real, n: real, d: real)
    requires n > 0.0 && r * n == d
    ensures VocabularyScore(r) == 10 <==> d >= 0.9 * n
    ensures VocabularyScore(r) >= 8 <==> d >= 0.7 * n
  {
    RatioAtLeast(r, n, d, 0.9);
    RatioAtLeast(r, n, d, 0.7);
  }

  /** The 0.9 and 0.7 thresholds in whole numbers. */
  lemma ScaledCompare(d: nat, n: nat)
    ensures 10 * d >= 9 * n <==> d as real >= 0.9 * n as real
    ensures 10 * d >= 7 * n <==> d as real >= 0.7 * n as real
  {
  }

  /** For r * n == d with n > 0, r >= t exactly when d >= t * n. */
  lemma RatioAtLeast(r: real, n: real, d: real, t: real)
    requires n > 0.0 && r * n == d
    ensures r >= t <==> d >= t * n
  {
    if r >= t {
      assert r * n >= t * n;
    } else {
      assert r * n < t * n;
    }
  }

  /** `round(fillers / words * 100, 2)`: a percentage to two decimals, 0 with no words. */
  function FillerRate(fillerCount: nat, wordCount: nat): (r: real)
    ensures r >= 0.0
    ensures wordCount == 0 ==> r == 0.0
    ensures fillerCount == 0 ==> r == 0.0
    ensures (r * 100.0).Floor as real == r * 100.0
    ensures wordCount > 0 ==>
      -0.005 <= r - fillerCount as real / wordCount as real * 100.0 <= 0.005
  {
    if wordCount > 0 then
      var q := fillerCount as real / wordCount as real;
      assert q >= 0.0 && (fillerCount == 0 ==> q == 0.0);
      var exact := q * 100.0;
      var k := RoundHalfEven(exact * 100.0);
      HundredthsWithin(k, exact);
      k as real / 100.0
    else 0.0
  }

  /** An integer within 1/2 of 100x, divided by 100, is within 0.005 of x. */
  lemma HundredthsWithin(k: int, x: real)
    requires -0.5 <= k as real - x * 100.0 <= 0.5
    ensures -0.005 <= k as real / 100.0 - x <= 0.005
  {
  }

  /** Clarity: 15 when fillers make up at most 3 percent, else 12. */
  function ClarityScore(fillerRate: real): (r: nat)
    ensures r in {12, 15}
  {
    if fillerRate <= 3.0 then 15 else 12
  }

  /** Because of the rounding to two decimals, clarity stays at 15 up to a rate of
      3.005 percent: 20000 fillers <= 601 words. */
  lemma ClarityByCounts(fillerCount: nat, wordCount: nat)
    ensures ClarityScore(FillerRate(fillerCount, wordCount)) == 15 <==>
      wordCount == 0 || 20000 * fillerCount <= 601 * wordCount
  {
    if wordCount > 0 {
      var y := (fillerCount as real / wordCount as real) * 100.0 * 100.0;
      var k := RoundHalfEven(y);
      RoundAtMostEven(y, 300);
      assert FillerRate(fillerCount, wordCount) <= 3.0 <==> k <= 300;
      Schema.RatioAtMost(10000 * fillerCount, wordCount, 300.5);
      assert y == (10000 * fillerCount) as real / wordCount as real;
    }
  }

  /** The statistics of one transcript. */
  datatype LexicalStats = LexicalStats(
    wordCount: nat,
    wpm: nat,
    typeTokenRatio: real,
    fillerRate: real)

  /** All the lexical measurements of a tokenised transcript whose filler
      matches have been counted. */
  function Measure(words: seq<string>, fillerCount: nat, duration: real): (s: LexicalStats)
    ensures s.wordCount == |words|
    ensures s.wpm == WordsPerMinute(|words|, duration)
    ensures s.typeTokenRatio == TypeTokenRatio(words)
    ensures s.fillerRate == FillerRate(fillerCount, |words|)
    ensures 0.0 <= s.typeTokenRatio <= 1.0
    ensures s.fillerRate >= 0.0
    ensures |words| == 0 ==> s.typeTokenRatio == 0.0 && s.fillerRate == 0.0
    ensures duration <= 0.0 ==> s.wpm == 0
  {
    LexicalStats(
      |words|,
      WordsPerMinute(|words|, duration),
      TypeTokenRatio(words),
      FillerRate(fillerCount, |words|))
  }

  /** An empty transcript scores 6 for vocabulary and 15 for clarity. */
  lemma EmptyTranscriptScores(fillerCount: nat, duration: real)
    ensures VocabularyScore(Measure([], fillerCount, duration).typeTokenRatio) == 6
    ensures ClarityScore(Measure([], fillerCount, duration).fillerRate) == 15
    ensures SpeedBand(Measure([], fillerCount, duration).wpm) == TooSlow
  {
  }
}

=== FILE: Report.dfy ===
/** The parts of the report that decide WHAT is shown: how a detail field is
    displayed, which detail fields appear in the two panels, and whether the
    grammar section is a success box or one box per error. Markup and styling
    are not modelled. */
module Report {
  import opened Wrappers
  import opened Text
  import opened Schema

  /** The placeholder for a field the speaker did not mention. */
  const NotMentioned: string := "<em>Not mentioned</em>"

  /** `format_list`: a list is comma-joined (even when empty); any other value
      is shown as is when truthy and as the placeholder otherwise. */
  function FormatList(d: Detail): (r: string)
    ensures !d.Items? ==> (r == NotMentioned <==> !Truthy(d) || d == Text(NotMentioned))
    ensures d.Text? && Truthy(d) ==> r == d.s
    ensures d.Items? ==> r == Join(d.xs, ", ")
    ensures d.Items? ==> |r| == if d.xs == [] then 0 else TotalLength(d.xs) + 2 * (|d.xs| - 1)
    ensures d.Items? && |d.xs| > 0 ==> d.xs[0] <= r
  {
    match d
    case Items(xs) =>
      var r := Join(xs, ", ");
      assert xs != [] ==> |r| == TotalLength(xs) + 2 * (|xs| - 1) by {
        if xs != [] {
          JoinLength(xs, ", ");
        }
      }
      r
    case Text(s) => if |s| > 0 then s else NotMentioned
    case Absent => NotMentioned
  }

  /** The renderer and the scorer agree on what was mentioned, with one
      exception: an empty list scores nothing but is shown as an empty string
      rather than as the placeholder. */
  lemma FormatListAgreesWithScoring(d: Detail)
    ensures !Truthy(d) && !d.Items? ==> FormatList(d) == NotMentioned
    ensures !Truthy(d) && d.Items? ==> FormatList(d) == ""
    ensures Truthy(d) && d.Text? && d.s != NotMentioned ==> FormatList(d) != NotMentioned
    ensures Truthy(d) && d.Items? ==> |FormatList(d)| == TotalLength(d.xs) + (|d.xs| - 1) * 2
  {
    if Truthy(d) && d.Items? {
      JoinLength(d.xs, ", ");
    }
  }

  /** One labelled line of a detail panel. */
  datatype DetailLine = DetailLine(caption: string, value: string)

  /** The two content panels: basic information and deeper insights. */
  datatype Panels = Panels(basic: seq<DetailLine>, insights: seq<DetailLine>)

  /** The basic panel shows the opening phrase, name, age, class and hobbies;
      the insights panel the family context, about-family, ambition and unique
      fact. The opening phrase is shown as extracted; every other detail goes
      through `format_list`. */
  function DetailPanels(data: EvaluationResult): (p: Panels)
    ensures |p.basic| == 5 && |p.insights| == 4
    ensures p.basic[0] == DetailLine("Opening:", data.salutation.phraseUsed)
    ensures p.basic[1] == DetailLine("Name:", FormatList(OfText(data.basicDetails.name)))
    ensures p.basic[2] == DetailLine("Age:", FormatList(OfText(data.basicDetails.age)))
    ensures p.basic[3] == DetailLine("Class/Job:", FormatList(OfList(data.basicDetails.schoolClass)))
    ensures p.basic[4] == DetailLine("Hobbies:", FormatList(OfList(data.basicDetails.hobbies)))
    ensures p.insights[0] == DetailLine("Family Context:", FormatList(OfText(data.basicDetails.family)))
    ensures p.insights[1] == DetailLine("About Family:", FormatList(OfText(data.extraDetails.aboutFamily)))
    ensures p.insights[2] == DetailLine("Ambition:", FormatList(OfText(data.extraDetails.ambition)))
    ensures p.insights[3] == DetailLine("Unique Fact:", FormatList(OfText(data.extraDetails.uniqueFact)))
  {
    var b := data.basicDetails;
    var e := data.extraDetails;
    Panels(
      [ DetailLine("Opening:", data.salutation.phraseUsed),
        DetailLine("Name:", FormatList(OfText(b.name))),
        DetailLine("Age:", FormatList(OfText(b.age))),
        DetailLine("Class/Job:", FormatList(OfList(b.schoolClass))),
        DetailLine("Hobbies:", FormatList(OfList(b.hobbies))) ],
      [ DetailLine("Family Context:", FormatList(OfText(b.family))),
        DetailLine("About Family:", FormatList(OfText(e.aboutFamily))),
        DetailLine("Ambition:", FormatList(OfText(e.ambition))),
        DetailLine("Unique Fact:", FormatList(OfText(e.uniqueFact))) ])
  }

  /** A detail the speaker did not mention shows the placeholder on its line,
      and a mentioned string detail shows itself. */
  lemma PanelsShowMentionedDetails(data: EvaluationResult)
    ensures var p := DetailPanels(data); var b := data.basicDetails; var e := data.extraDetails;
      && (b.name == None ==> p.basic[1].value == NotMentioned)
      && (b.age == None ==> p.basic[2].value == NotMentioned)
      && (b.schoolClass == None ==> p.basic[3].value == NotMentioned)
      && (b.hobbies == None ==> p.basic[4].value == NotMentioned)
      && (b.family == None ==> p.insights[0].value == NotMentioned)
      && (e.aboutFamily == None ==> p.insights[1].value == NotMentioned)
      && (e.ambition == None ==> p.insights[2].value == NotMentioned)
      && (e.uniqueFact == None ==> p.insights[3].value == NotMentioned)
      && (b.name.Some? && b.name.value != "" ==> p.basic[1].value == b.name.value)
      && (b.age.Some? && b.age.value != "" ==> p.basic[2].value == b.age.value)
      && (b.family.Some? && b.family.value != "" ==> p.insights[0].value == b.family.value)
  {
  }

  /** The origin and the strengths are scored but never shown: changing them
      leaves both panels as they were. */
  lemma PanelsIgnoreOriginAndStrengths(data: EvaluationResult, origin: Option<string>, strengths: Option<seq<string>>)
    ensures DetailPanels(data.(extraDetails := data.extraDetails.(origin := origin, strengths := strengths)))
         == DetailPanels(data)
  {
  }

  /** One box of the grammar-feedback section. */
  datatype FeedbackBox = SuccessBox | ErrorBox(wrong: string, right: string, reason: string)

  function BoxFor(err: GrammarError): FeedbackBox {
    ErrorBox(err.errorText, err.correction, err.reason)
  }

  /** The grammar section: a single success box when there are no errors,
      otherwise one box per error, in order. */
  method GrammarFeedback(errors: seq<GrammarError>) returns (boxes: seq<FeedbackBox>)
    ensures errors == [] <==> boxes == [SuccessBox]
    ensures errors != [] ==> |boxes| == |errors|
    ensures errors != [] ==> forall i :: 0 <= i < |errors| ==> boxes[i] == BoxFor(errors[i])
  {
    if errors == [] {
      return [SuccessBox];
    }
    boxes := [];
    var k := 0;
    while k < |errors|
      invariant 0 <= k <= |errors|
      invariant |boxes| == k
      invariant forall i :: 0 <= i < k ==> boxes[i] == BoxFor(errors[i])
    {
      boxes := boxes + [BoxFor(errors[k])];
      k := k + 1;
    }
    assert boxes[0] == BoxFor(errors[0]);
  }
}

=== FILE: Schema.dfy ===
/** The structured extraction record the language model must return, and the
    sub-score each of its sections derives from its own fields alone. */
module Schema {
  import opened Wrappers

  /** The qualitative salutation tiers, lowest first. */
  datatype SalutationLevel = NoSalutation | Normal | Good | Excellent

  /** Position of a tier in the order NoSalutation < Normal < Good < Excellent. */
  function Rank(l: SalutationLevel): nat {
    match l
    case NoSalutation => 0
    case Normal => 1
    case Good => 2
    case Excellent => 3
  }

  datatype Salutation = Salutation(phraseUsed: string, level: SalutationLevel)

  /** The tier table: No Salutation 0, Normal 2, Good 4, Excellent 5. */
  function SalutationScore(s: Salutation): (r: nat)
    ensures r <= 5
    ensures r == 0 <==> s.level == NoSalutation
    ensures r == 2 <==> s.level == Normal
    ensures r == 4 <==> s.level == Good
    ensures r == 5 <==> s.level == Excellent
  {
    match s.level
    case NoSalutation => 0
    case Normal => 2
    case Good => 4
    case Excellent => 5
  }

  /** A higher tier always scores strictly more. */
  lemma SalutationScoreStrictlyMonotone(a: Salutation, b: Salutation)
    ensures Rank(a.level) < Rank(b.level) <==> SalutationScore(a) < SalutationScore(b)
  {
  }

  /** A detail field as the extraction delivers it: absent (`None`), a string,
      or a list of strings. */
  datatype Detail = Absent | Text(s: string) | Items(xs: seq<string>)

  /** Python truthiness: `None`, `""` and `[]` are false, everything else true. */
  predicate Truthy(d: Detail): (b: bool)
    ensures b <==> d != Absent && d != Text("") && d != Items([])
  {
    match d
    case Absent => false
    case Text(s) => |s| > 0
    case Items(xs) => |xs| > 0
  }

  function OfText(o: Option<string>): Detail {
    match o
    case None => Absent
    case Some(s) => Text(s)
  }

  function OfList(o: Option<seq<string>>): Detail {
    match o
    case None => Absent
    case Some(xs) => Items(xs)
  }

  /** `sum(1 for item in found if item)`. */
  function CountTruthy(ds: seq<Detail>): (n: nat)
    ensures n <= |ds|
    ensures n == 0 <==> forall i :: 0 <= i < |ds| ==> !Truthy(ds[i])
    ensures n == |ds| <==> forall i :: 0 <= i < |ds| ==> Truthy(ds[i])
  {
    if |ds| == 0 then 0
    else
      var rest := CountTruthy(ds[1..]);
      assert forall i :: 1 <= i < |ds| ==> ds[i] == ds[1..][i - 1];
      (if Truthy(ds[0]) then 1 else 0) + rest
  }

  /** Filling one untruthy field with a truthy value adds exactly one to the count. */
  lemma {:induction false} CountTruthyFill(ds: seq<Detail>, i: nat, d: Detail)
    requires i < |ds| && !Truthy(ds[i]) && Truthy(d)
    ensures CountTruthy(ds[i := d]) == CountTruthy(ds) + 1
  {
    if i > 0 {
      assert ds[i := d][1..] == ds[1..][i - 1 := d];
      CountTruthyFill(ds[1..], i - 1, d);
    }
  }

  datatype BasicDetails = BasicDetails(
    name: Option<string>,
    age: Option<string>,
    schoolClass: Option<seq<string>>,
    family: Option<string>,
    hobbies: Option<seq<string>>)

  /** The five fields in the order the scorer lists them. */
  function BasicFields(b: BasicDetails): (ds: seq<Detail>)
    ensures |ds| == 5
  {
    [OfText(b.name), OfText(b.age), OfList(b.schoolClass), OfText(b.family), OfList(b.hobbies)]
  }

  /** Four points per mentioned basic detail. */
  function BasicScore(b: BasicDetails): (r: nat)
    ensures r % 4 == 0 && r <= 20
    ensures r == 20 <==> forall i :: 0 <= i < 5 ==> Truthy(BasicFields(b)[i])
    ensures r == 0 <==> forall i :: 0 <= i < 5 ==> !Truthy(BasicFields(b)[i])
  {
    CountTruthy(BasicFields(b)) * 4
  }

  datatype ExtraDetails = ExtraDetails(
    aboutFamily: Option<string>,
    origin: Option<string>,
    ambition: Option<string>,
    uniqueFact: Option<string>,
    strengths: Option<seq<string>>)

  function ExtraFields(e: ExtraDetails): (ds: seq<Detail>)
    ensures |ds| == 5
  {
    [OfText(e.aboutFamily), OfText(e.origin), OfText(e.ambition), OfText(e.uniqueFact), OfList(e.strengths)]
  }

  /** Two points per mentioned extra detail. */
  function ExtraScore(e: ExtraDetails): (r: nat)
    ensures r % 2 == 0 && r <= 10
    ensures r == 10 <==> forall i :: 0 <= i < 5 ==> Truthy(ExtraFields(e)[i])
    ensures r == 0 <==> forall i :: 0 <= i < 5 ==> !Truthy(ExtraFields(e)[i])
  {
    CountTruthy(ExtraFields(e)) * 2
  }

  /** The record with basic field i mentioned: `s` for a string field, `xs`
      for a list field, in the order of `BasicFields`. */
  function MentionBasic(b: BasicDetails, i: nat, s: string, xs: seq<string>): BasicDetails
    requires i < 5
  {
    match i
    case 0 => b.(name := Some(s))
    case 1 => b.(age := Some(s))
    case 2 => b.(schoolClass := Some(xs))
    case 3 => b.(family := Some(s))
    case _ => b.(hobbies := Some(xs))
  }

  /** The record with extra field i mentioned, in the order of `ExtraFields`. */
  function MentionExtra(e: ExtraDetails, i: nat, s: string, xs: seq<string>): ExtraDetails
    requires i < 5
  {
    match i
    case 0 => e.(aboutFamily := Some(s))
    case 1 => e.(origin := Some(s))
    case 2 => e.(ambition := Some(s))
    case 3 => e.(uniqueFact := Some(s))
    case _ => e.(strengths := Some(xs))
  }

  /** Mentioning a previously missing basic detail (a non-empty string for a
      string field, a non-empty list for a list field) adds exactly four. */
  lemma BasicScoreFill(b: BasicDetails, i: nat, s: string, xs: seq<string>)
    requires i < 5 && !Truthy(BasicFields(b)[i])
    requires (i == 2 || i == 4 ==> xs != []) && (i != 2 && i != 4 ==> s != "")
    ensures BasicScore(MentionBasic(b, i, s, xs)) == BasicScore(b) + 4
  {
    var d := if i == 2 || i == 4 then Items(xs) else Text(s);
    assert BasicFields(MentionBasic(b, i, s, xs)) == BasicFields(b)[i := d];
    CountTruthyFill(BasicFields(b), i, d);
  }

  /** Mentioning a previously missing extra detail adds exactly two. */
  lemma ExtraScoreFill(e: ExtraDetails, i: nat, s: string, xs: seq<string>)
    requires i < 5 && !Truthy(ExtraFields(e)[i])
    requires (i == 4 ==> xs != []) && (i != 4 ==> s != "")
    ensures ExtraScore(MentionExtra(e, i, s, xs)) == ExtraScore(e) + 2
  {
    var d := if i == 4 then Items(xs) else Text(s);
    assert ExtraFields(MentionExtra(e, i, s, xs)) == ExtraFields(e)[i := d];
    CountTruthyFill(ExtraFields(e), i, d);
  }

  datatype FlowSequence = FlowSequence(isOrderFollowed: bool)

  function FlowScore(f: FlowSequence): (r: nat)
    ensures r == 5 <==> f.isOrderFollowed
    ensures r == 0 <==> !f.isOrderFollowed
  {
    if f.isOrderFollowed then 5 else 0
  }

  datatype GrammarError = GrammarError(errorText: string, correction: string, reason: string)

  datatype GrammarAnalysis = GrammarAnalysis(errors: seq<GrammarError>)

  function MinReal(a: real, b: real): real {
    if a <= b then a else b
  }

  /** `calculate_score`: bands over raw = 1 - min(10 * errors / words, 1). */
  function GrammarScore(g: GrammarAnalysis, totalWords: nat): (r: nat)
    ensures totalWords == 0 <==> r == 0
    ensures r in {0, 2, 4, 6, 8, 10}
    ensures totalWords > 0 && |g.errors| == 0 ==> r == 10
    ensures totalWords > 0 && 10 * |g.errors| >= totalWords ==> r == 2
  {
    if totalWords == 0 then 0
    else
      var raw := 1.0 - MinReal((10 * |g.errors|) as real / totalWords as real, 1.0);
      if raw >= 0.9 then 10
      else if 0.7 <= raw < 0.9 then 8
      else if 0.5 <= raw < 0.7 then 6
      else if 0.3 <= raw < 0.5 then 4
      else 2
  }

  /** The grammar bands restated over whole numbers: with e errors among w > 0
      words, 100e <= w gives 10, 100e <= 3w gives 8, 20e <= w gives 6,
      100e <= 7w gives 4, and anything denser gives 2. */
  function GrammarBand(e: nat, w: nat): nat {
    if 100 * e <= w then 10
    else if 100 * e <= 3 * w then 8
    else if 20 * e <= w then 6
    else if 100 * e <= 7 * w then 4
    else 2
  }

  /** Comparing the ratio a / w with a threshold t is comparing a with t * w. */
  lemma RatioAtMost(a: nat, w: nat, t: real)
    requires w > 0
    ensures a as real / w as real <= t <==> a as real <= t * w as real
  {
    var x := a as real / w as real;
    assert x * w as real == a as real;
    if x <= t {
      assert x * w as real <= t * w as real;
    }
  }

  /** Raw grammar quality reaches 1 - t (for 0 <= t < 1) exactly when 10e <= t * w. */
  lemma RawAtLeast(e: nat, w: nat, t: real)
    requires w > 0 && 0.0 <= t < 1.0
    ensures 1.0 - MinReal((10 * e) as real / w as real, 1.0) >= 1.0 - t
        <==> (10 * e) as real <= t * w as real
  {
    RatioAtMost(10 * e, w, t);
  }

  /** The real-valued bands agree with the whole-number ones. */
  lemma GrammarScoreIsBand(g: GrammarAnalysis, w: nat)
    requires w > 0
    ensures GrammarScore(g, w) == GrammarBand(|g.errors|, w)
  {
    var e := |g.errors|;
    RawAtLeast(e, w, 0.1);
    RawAtLeast(e, w, 0.3);
    RawAtLeast(e, w, 0.5);
    RawAtLeast(e, w, 0.7);
  }

  /** More errors in the same number of words never raise the grammar score. */
  lemma GrammarScoreAntitone(g1: GrammarAnalysis, g2: GrammarAnalysis, w: nat)
    requires |g1.errors| <= |g2.errors|
    ensures GrammarScore(g2, w) <= GrammarScore(g1, w)
  {
    if w > 0 {
      GrammarScoreIsBand(g1, w);
      GrammarScoreIsBand(g2, w);
    }
  }

  datatype Sentiment = Positive | Neutral | Negative

  function SentimentLabel(s: Sentiment): (l: string)
    ensures '\n' !in l
  {
    match s
    case Positive => "Positive"
    case Neutral => "Neutral"
    case Negative => "Negative"
  }

  /** Distinct sentiments have distinct labels. */
  lemma SentimentLabelInjective(a: Sentiment, b: Sentiment)
    requires SentimentLabel(a) == SentimentLabel(b)
    ensures a == b
  {
  }

  /** The probability is a plain float: nothing checks that it lies in [0, 1]. */
  datatype Engagement = Engagement(sentimentLabel: Sentiment, positivityProbability: real)

  /** Engagement bands: >= 0.9 gives 15, >= 0.7 gives 12, >= 0.5 gives 9,
      >= 0.3 gives 6, anything lower (negative values included) gives 3. */
  function EngagementScore(e: Engagement): (r: nat)
    ensures r in {3, 6, 9, 12, 15}
    ensures r == 15 <==> e.positivityProbability >= 0.9
    ensures r == 12 <==> 0.7 <= e.positivityProbability < 0.9
    ensures r == 9 <==> 0.5 <= e.positivityProbability < 0.7
    ensures r == 6 <==> 0.3 <= e.positivityProbability < 0.5
    ensures r == 3 <==> e.positivityProbability < 0.3
  {
    var val := e.positivityProbability;
    if val >= 0.9 then 15
    else if 0.7 <= val < 0.9 then 12
    else if 0.5 <= val < 0.7 then 9
    else if 0.3 <= val < 0.5 then 6
    else 3
  }

  /** A more positive reading never lowers the engagement score. */
  lemma EngagementScoreMonotone(a: Engagement, b: Engagement)
    requires a.positivityProbability <= b.positivityProbability
    ensures EngagementScore(a) <= EngagementScore(b)
  {
  }

  datatype EvaluationResult = EvaluationResult(
    salutation: Salutation,
    basicDetails: BasicDetails,
    extraDetails: ExtraDetails,
    flow: FlowSequence,
    grammar: GrammarAnalysis,
    engagement: Engagement)
}

=== FILE: Text.dfy ===
/** String helpers with the semantics of the Python built-ins the scorer uses:
    `str.strip`, `str.lower`, `str.find`, `str.rfind`, slicing, `", ".join`
    and the decimal rendering of a non-negative `int`. */
module Text {

  /** Python's `str.isspace` for a single character. */
  predicate IsSpace(c: char) {
    || c == ' ' || ('\t' <= c <= '\r') || ('\U{1C}' <= c <= '\U{1F}')
    || c == '\U{85}' || c == '\U{A0}' || c == '\U{1680}'
    || ('\U{2000}' <= c <= '\U{200A}') || c == '\U{2028}' || c == '\U{2029}'
    || c == '\U{202F}' || c == '\U{205F}' || c == '\U{3000}'
  }

  /** `s.lstrip()`: drops leading whitespace. */
  function TrimStart(s: string): (r: string)
    ensures |r| <= |s| && r == s[|s| - |r|..]
    ensures forall i :: 0 <= i < |s| - |r| ==> IsSpace(s[i])
    ensures r == [] || !IsSpace(r[0])
    decreases |s|
  {
    if |s| > 0 && IsSpace(s[0]) then TrimStart(s[1..]) else s
  }

  /** `s.rstrip()`: drops trailing whitespace. */
  function TrimEnd(s: string): (r: string)
    ensures |r| <= |s| && r == s[..|r|]
    ensures forall i :: |r| <= i < |s| ==> IsSpace(s[i])
    ensures r == [] || !IsSpace(r[|r| - 1])
    decreases |s|
  {
    if |s| > 0 && IsSpace(s[|s| - 1]) then TrimEnd(s[..|s| - 1]) else s
  }

  /** `s.strip()`: the run left after dropping whitespace at both ends. */
  function Strip(s: string): (r: string)
    ensures r == [] || (!IsSpace(r[0]) && !IsSpace(r[|r| - 1]))
    ensures exists i :: 0 <= i <= |s| - |r| && r == s[i..i + |r|] && IsBlank(s[..i]) && IsBlank(s[i + |r|..])
  {
    var t := TrimStart(s);
    var r := TrimEnd(t);
    var i := |s| - |t|;
    assert r == s[i..i + |r|];
    assert IsBlank(s[..i]);
    var rest := s[i + |r|..];
    assert forall k :: 0 <= k < |rest| ==> rest[k] == t[|r| + k];
    assert IsBlank(rest);
    r
  }

  /** A string is blank when it is empty or all whitespace. */
  predicate IsBlank(s: string) {
    forall i :: 0 <= i < |s| ==> IsSpace(s[i])
  }

  /** `s.strip() == ""` holds exactly for the blank strings. */
  lemma StripEmptyIffBlank(s: string)
    ensures Strip(s) == "" <==> IsBlank(s)
  {
    var t := TrimStart(s);
    if !IsBlank(s) {
      var k :| 0 <= k < |s| && !IsSpace(s[k]);
      assert k >= |s| - |t|;
      assert t[k - (|s| - |t|)] == s[k];
    }
  }

  /** ASCII case folding of one character. */
  function LowerChar(c: char): (r: char)
    ensures 'A' <= c <= 'Z' ==> 'a' <= r <= 'z' && r as int - c as int == 32
    ensures !('A' <= c <= 'Z') ==> r == c
  {
    if 'A' <= c <= 'Z' then (c as int + 32) as char else c
  }

  /** `s.lower()`, restricted to ASCII letters. */
  function Lower(s: string): (r: string)
    ensures |r| == |s|
    ensures forall i :: 0 <= i < |s| ==> r[i] == LowerChar(s[i])
    ensures forall i :: 0 <= i < |r| ==> !('A' <= r[i] <= 'Z')
  {
    seq(|s|, i requires 0 <= i < |s| => LowerChar(s[i]))
  }

  /** `s.find(c)`: the first index of `c`, or -1 when `c` does not occur. */
  function Find(s: string, c: char): (r: int)
    ensures -1 <= r < |s|
    ensures r == -1 <==> c !in s
    ensures r >= 0 ==> s[r] == c && c !in s[..r]
  {
    if |s| == 0 then -1
    else if s[0] == c then 0
    else
      var k := Find(s[1..], c);
      if k == -1 then -1
      else
        assert s[1..][..k] == s[1..k + 1];
        assert s[..k + 1] == [s[0]] + s[1..k + 1];
        k + 1
  }

  /** `s.rfind(c)`: the last index of `c`, or -1 when `c` does not occur. */
  function RFind(s: string, c: char): (r: int)
    ensures -1 <= r < |s|
    ensures r == -1 <==> c !in s
    ensures r >= 0 ==> s[r] == c && c !in s[r + 1..]
  {
    if |s| == 0 then -1
    else if s[|s| - 1] == c then |s| - 1
    else
      var init := s[..|s| - 1];
      var k := RFind(init, c);
      assert s == init + [s[|s| - 1]];
      if k == -1 then
        -1
      else
        assert s[k + 1..] == init[k + 1..] + [s[|s| - 1]];
        k
  }

  /** `r` occurs in `s` as a contiguous run of characters. */
  predicate IsSubstring(r: string, s: string) {
    exists i :: 0 <= i <= |s| && r <= s[i..]
  }

  /** Python's `s[start:stop]` for non-negative bounds: out-of-range bounds are
      clipped to the length and a stop at or before the start gives "". */
  function Slice(s: string, start: nat, stop: nat): (r: string)
    ensures start < stop <= |s| ==> r == s[start..stop]
    ensures stop <= start ==> r == []
    ensures IsSubstring(r, s)
  {
    var lo := if start < |s| then start else |s|;
    var hi := if stop < lo then lo else if stop < |s| then stop else |s|;
    assert s[lo..hi] <= s[lo..];
    s[lo..hi]
  }

  /** `sep.join(xs)`. */
  function Join(xs: seq<string>, sep: string): (r: string)
    ensures xs == [] ==> r == []
    ensures |xs| == 1 ==> r == xs[0]
    ensures |xs| >= 2 ==> xs[0] + sep <= r
  {
    if |xs| == 0 then []
    else if |xs| == 1 then xs[0]
    else xs[0] + sep + Join(xs[1..], sep)
  }

  /** Appending an item to a non-empty list appends the separator and the item
      to the joined string: every item appears, in order, one separator apart. */
  lemma {:induction false} JoinSnoc(xs: seq<string>, x: string, sep: string)
    requires |xs| > 0
    ensures Join(xs + [x], sep) == Join(xs, sep) + sep + x
  {
    if |xs| > 1 {
      assert (xs + [x])[1..] == xs[1..] + [x];
      JoinSnoc(xs[1..], x, sep);
    }
  }

  /** Total length of a sequence of strings. */
  function TotalLength(xs: seq<string>): nat {
    if |xs| == 0 then 0 else |xs[0]| + TotalLength(xs[1..])
  }

  /** A joined string is its pieces plus one separator between each pair. */
  lemma {:induction false} JoinLength(xs: seq<string>, sep: string)
    requires |xs| > 0
    ensures |Join(xs, sep)| == TotalLength(xs) + (|xs| - 1) * |sep|
  {
    if |xs| > 1 {
      JoinLength(xs[1..], sep);
    }
  }

  /** The decimal digit character for `d`. */
  function DigitChar(d: nat): (c: char)
    requires d < 10
    ensures '0' <= c <= '9' && c as int - '0' as int == d
  {
    ('0' as int + d) as char
  }

  predicate IsDigits(s: string) {
    forall i :: 0 <= i < |s| ==> '0' <= s[i] <= '9'
  }

  /** `str(n)` for a non-negative integer: its decimal digits, no leading zero. */
  function NatToDecimal(n: nat): (r: string)
    ensures |r| >= 1 && IsDigits(r)
    ensures |r| > 1 ==> r[0] != '0'
  {
    if n < 10 then [DigitChar(n)]
    else NatToDecimal(n / 10) + [DigitChar(n % 10)]
  }

  /** No character other than a digit occurs in a decimal rendering. */
  lemma NoNonDigit(n: nat, c: char)
    requires !('0' <= c <= '9')
    ensures c !in NatToDecimal(n)
  {
    var d := NatToDecimal(n);
    assert forall i :: 0 <= i < |d| ==> d[i] != c;
  }

  /** The number a string of decimal digits denotes. */
  function DecimalValue(s: string): nat
    requires IsDigits(s)
  {
    if |s| == 0 then 0
    else DecimalValue(s[..|s| - 1]) * 10 + (s[|s| - 1] as int - '0' as int)
  }

  /** Reading back the decimal rendering gives the number. */
  lemma {:induction false} DecimalRoundTrip(n: nat)
    ensures DecimalValue(NatToDecimal(n)) == n
  {
    var s := NatToDecimal(n);
    if n >= 10 {
      var p := NatToDecimal(n / 10);
      assert s[..|s| - 1] == p;
      DecimalRoundTrip(n / 10);
    }
  }

  /** Distinct numbers render differently. */
  lemma DecimalInjective(m: nat, n: nat)
    requires NatToDecimal(m) == NatToDecimal(n)
    ensures m == n
  {
    DecimalRoundTrip(m);
    DecimalRoundTrip(n);
  }

  /** Equal strings with a common prefix have equal remainders. */
  lemma PrefixCancel(p: string, s1: string, s2: string)
    requires p + s1 == p + s2
    ensures s1 == s2
  {
    assert s1 == (p + s1)[|p|..];
  }

  /** A string cut at the first occurrence of a character that neither of two
      prefixes contains splits the same way both times. */
  lemma DelimitedSplit(a1: string, s1: string, a2: string, s2: string, c: char)
    requires c !in a1 && c !in a2
    requires a1 + [c] + s1 == a2 + [c] + s2
    ensures a1 == a2 && s1 == s2
  {
    var t := a1 + [c] + s1;
    assert t[..|a1|] == a1 && t[|a1|] == c;
    assert t[..|a2|] == a2 && t[|a2|] == c;
    assert Find(t, c) == |a1|;
    assert Find(t, c) == |a2|;
    assert s1 == t[|a1| + 1..];
  }
}

=== FILE: Wrappers.dfy ===
/** Optional values and success/failure results, used for the nullable
    fields of the extraction record and for the collaborators that can fail. */
module Wrappers {

  /** A value that may be absent (Python's `Optional[T]`, `None` being absent). */
  datatype Option<+T> = None | Some(value: T)

  /** The outcome of a step that either yields a value or fails with an error. */
  datatype Result<+R, +E> = Success(value: R) | Failure(error: E)
}
